=== FILE: README.md ===
# AMA-G credential vault — verified model

This project models the server core of a credential-vault service that
stores third-party API keys (for n8n, Flowise and GitHub) on behalf of users.
Four pieces are modelled:

- **AMA-G policy engine and governance middleware** (`server/amaG.ts`).
  Four rules (verity, determinism, noContamination, epistemicSecurity) each
  judge an operation context. The aggregate passes iff all four pass. On
  failure it reports the first failing rule in that fixed order. Audit
  logging and the `withAMAGValidation` middleware are modelled too.
  `ValidateWithAMAG` is a function, so one context against one database
  state always gets the same verdict.
- **Credential store adapter** (`server/credentials.ts`). CRUD over
  credential rows, scoped by owner and by the active flag, with soft delete.
- **Secret cipher framing** (`server/crypto.ts`). The key-length check, the
  12-byte nonce, the frame `hex(ciphertext) + hex(tag)`, splitting the tag
  off again with Node's `slice` clamping, the nonce and key checks before
  decryption, and error wrapping. AES-256-GCM itself (NIST SP 800-38D,
  sections 7.1 and 7.2) and the UTF-8 conversions around it are the
  abstract functions of `Aead`. The ghost predicate `Sound` states what the
  model relies on: sealing keeps the length and makes 16-byte tags; a
  sealed ciphertext opens under its tag or any prefix of it of a length
  `setAuthTag` accepts (4, 8, 12 to 16 bytes); `open` succeeds only on such
  a ciphertext and tag prefix (idealised integrity); and lenient UTF-8
  decoding inverts encoding, and is lossless on bytes it decodes without a
  replacement character.
- **Credential routes** (`server/routers.ts`). `credentials.list` calls the
  store's owner listing and redacts every secret; it neither validates nor
  logs. `credentials.create` evaluates the AMA-G verdict, throws if it
  fails, otherwise creates the row, logs the passing verdict and returns
  the row with its secret redacted. `credentials.delete` evaluates the
  verdict the same way, then soft-deletes, logs, and returns
  `{ success }`.

The database is one `Db` value. It holds an availability flag (the answer
of `getDb()`), a flag for audit inserts the driver rejects, the credential
rows keyed by auto-increment id, the next id, and the append-only audit
sequence. Every operation is a pure function from a `Db` to a new `Db`
and an `Outcome`. An `Outcome` either returns a value or throws an
exception.

Files: `base.dfy` (Option/Result/Outcome), `hex.dfy` (Node's `'hex'`
codec), `cipher.dfy`, `schema.dfy` (rows and database state), `amag.dfy`,
`credentials.dfy`, `routes.dfy`, and `sound_witness.dfy` (an instance of the cipher assumptions).

Facts about the code that the model keeps:
- `deleteCredential` returns `true` whenever a connection exists, even if no
  row matched (`server/credentials.ts:133-140`). It returns `false` only
  without a connection.
- A non-owner's update or delete is not rejected: the `where` clause also
  names the owner, so it silently changes nothing
  (`server/credentials.ts:123`, `server/credentials.ts:138`).
  `updateCredential` then returns the row with that id, whoever owns it
  (`server/credentials.ts:125`).
- The noContamination rule passes on every path
  (`server/amaG.ts:104-115`).
- The determinism rule fails with "Database unavailable" when there is no
  connection (`server/amaG.ts:62-67`).
- An audit row stores only `passed` or `failed`, never `blocked`, and never
  the verdict's reason (`server/amaG.ts:194-203`). So the error message the
  middleware puts into its failed verdict is not persisted.
- The routes throw on a failing verdict without writing an audit row
  (`server/routers.ts:45-47`, `server/routers.ts:75-77`); only
  `withAMAGValidation` logs its rejections (`server/amaG.ts:221-224`).
- `decryptCredential` reports an empty nonce, or one over 128 bytes, as an
  invalid initialization vector before it reports a bad key, because Node's
  `createDecipheriv` checks the nonce first (`server/crypto.ts:45-49`).

## Model

| member | source | states |
|---|---|---|
| Hex.EncodeAppend | server/crypto.ts:24-28 | hex of ciphertext followed by hex of tag is the hex of the concatenated frame |
| Hex.DecodeEncode | server/crypto.ts:41 | Node's lenient hex decoding recovers exactly the bytes that hex encoding wrote |
| Hex.DecodeWellFormedLength | server/crypto.ts:20 | a string of an even number of hex digits decodes to half as many bytes, nothing dropped |
| Hex.DecodedBytesNeedHexPrefix | server/crypto.ts:20 | decoding n bytes requires the first 2n characters to be hex digits |
| Hex.HexPrefixDecodes | server/crypto.ts:20 | 2n leading hex digits decode to at least n bytes whatever follows them |
| Base.Utf16Length | server/crypto.ts:66 | JavaScript's `length`: at least one unit per character, and exactly one per character when every character is in the Basic Multilingual Plane |
| SecretCipher.EncryptCredential | server/crypto.ts:16-34 | fails with "Invalid key length" iff the key does not decode to 32 bytes; otherwise the blob is hex(ciphertext ++ 16-byte tag), of length twice the plaintext's UTF-8 length plus 32, and the IV text is 24 hex characters decoding back to the nonce |
| SecretCipher.SplitTag | server/crypto.ts:41-43 | the last 16 bytes are the tag and the prefix the data; on a shorter buffer Node's clamping gives empty data and the whole buffer as tag |
| SecretCipher.SplitTagOfFrame | server/crypto.ts:41-43 | splitting a framed ciphertext recovers exactly the ciphertext and tag that encryption concatenated |
| SecretCipher.DecryptCredential | server/crypto.ts:39-60 | every failure carries the "Failed to decrypt credential: " prefix; an empty nonce or one over 128 bytes fails with "Invalid initialization vector", checked before the key; otherwise a key not of 32 bytes fails with "Invalid key length"; a frame of 16 bytes or more yields text only when it is the sealing of bytes decoding to that text; a shorter frame yields only the empty text, and only when it is an accepted prefix of the tag of sealing nothing |
| SecretCipher.OpenedFrameIsSealing | server/crypto.ts:41-54 | a successful open of a split frame means the frame is the sealing of the opened bytes, or for a short frame that those bytes are empty and the frame an accepted tag prefix |
| SecretCipher.RoundTrip | server/crypto.ts:16-60 | under any key that decodes to 32 bytes, decrypting what encryption produced returns the original plaintext |
| SecretCipher.TamperedFrameNeverYieldsOriginal | server/crypto.ts:39-59 | a full frame that differs from the sealing of a plaintext without U+FFFD under the nonce given to decryption never decrypts to that plaintext, and a short frame never decrypts to a non-empty plaintext |
| SecretCipher.MismatchedNonceFails | server/crypto.ts:16-59 | a stored frame presented with any nonce other than the one it was encrypted under fails to decrypt |
| SecretCipher.ShortFrameOpensOnlyToEmpty | server/crypto.ts:41-54 | a frame under 16 bytes decrypts iff it is a 4-, 8- or 12-to-15-byte prefix of the tag of sealing nothing, and then to the empty text |
| SecretCipher.TruncatedTagOfEmptySecretOpens | server/crypto.ts:41-54 | the stored frame of an empty secret cut to the first 12 tag bytes still decrypts to the empty secret |
| SoundWitness.SoundIsSatisfiable | server/crypto.ts:8 | the assumptions made of Node's AES-256-GCM and UTF-8 are consistent: a concrete, non-cryptographic instance satisfies every clause of `Sound` |
| SecretCipher.ValidateEncryptionKey | server/crypto.ts:65-67 | a key that passes is usable by the cipher exactly when it is all hex digits; a hex key passes exactly when it has 64 digits |
| SecretCipher.KeyCheckFacts | server/crypto.ts:65-67 | a key of 64 UTF-16 units decodes to 32 bytes iff it is all hex digits; a hex key's JavaScript length is its character count |
| SecretCipher.ValidatedKeyMayBeUnusable | server/crypto.ts:65-67 | a 64-character non-hex key passes the check yet makes every encryption throw |
| SecretCipher.UsableKeyMayFailValidation | server/crypto.ts:65-67 | a key of 65 hex digits fails the check, yet decodes to 32 bytes and encryption with it succeeds |
| SecretCipher.WellFormedKeyIsUsable | server/crypto.ts:65-67 | a key of 64 hex digits passes the check, decodes to 32 bytes, and encryption with it never throws |
| AmaG.Serialize | server/amaG.ts:72-74 | serialising the input gives nothing exactly for `undefined` and otherwise a non-empty text |
| AmaG.ValidateVerity | server/amaG.ts:30-54 | checks the input first ("Input must be a valid object") and only then the user id ("Invalid user context"); passes iff the input is an object and the user id is positive |
| AmaG.ValidateDeterminism | server/amaG.ts:60-87 | fails with "Database unavailable" exactly without a connection; with one, fails only for an `undefined` input |
| AmaG.ValidateNoContamination | server/amaG.ts:93-117 | passes on every path, so it can never cause a rejection |
| AmaG.ValidateEpistemicSecurity | server/amaG.ts:123-152 | passes iff the action is one of the 11 allowed names; the failure reason embeds the action |
| AmaG.FirstFailingIndex | server/amaG.ts:169 | finds the first failing verdict: all before it passed, and it failed (or none failed) |
| AmaG.ValidateWithAMAG | server/amaG.ts:157-182 | passes iff all four rules pass, then with "All AMA-G rules passed" tagged verity; on failure equals the first failing rule in the order verity, determinism, noContamination, epistemicSecurity |
| AmaG.VerdictDependsOnlyOnUserActionInput | server/amaG.ts:157-182 | the aggregate is determined by user id, action, input and database availability alone |
| AmaG.AllowListIsActionVocabulary | server/amaG.ts:125-137 | the string allow-list is exactly the closed vocabulary of 11 actions: the rule passes iff the action name parses, and each name parses back to its action |
| AmaG.LogOperation | server/amaG.ts:187-210 | appends nothing without a connection or when the insert fails (and never throws); otherwise appends exactly one row projecting the context, marked passed iff the verdict passed, never blocked; only the audit trail changes |
| AmaG.FailedVerdict | server/amaG.ts:231-235 | the verdict logged for a throwing operation fails, is tagged verity, and carries the error's message |
| AmaG.WithAMAGValidation | server/amaG.ts:215-239 | a failing verdict is logged and thrown as "AMA-G Validation Failed: " + reason without running the operation; a passing one runs the operation, appends exactly the row projecting the context with the passing verdict if it returned or the failed verdict carrying its error if it threw, and returns its value or rethrows its exception unchanged |
| AmaG.OneInvocationOneEntry | server/amaG.ts:215-239 | against a recording database, one governed invocation appends exactly one audit row matching its action and outcome |
| AmaG.AuditCompleteness | server/amaG.ts:215-239 | N governed invocations of any outcome append exactly N audit rows, in order, each marked passed iff its invocation returned |
| Credentials.GetCredentialById | server/credentials.ts:35-41 | the row with that id, or null when there is none or no connection |
| Credentials.CreateCredential | server/credentials.ts:9-30 | null and no change without a connection; an unusable key throws and changes nothing; otherwise exactly one active row under a fresh id storing the encryption output and never the secret, and that row is returned |
| Credentials.GetDecryptedCredential | server/credentials.ts:46-60 | null for no connection or a missing id, null instead of an exception when decryption fails, otherwise the decrypted secret |
| Credentials.CreatedSecretReadsBack | server/credentials.ts:15-60 | under any key the cipher accepts, a secret written by createCredential reads back unchanged through getDecryptedCredential |
| Credentials.SelectExact | server/credentials.ts:69-72 | the query returns exactly the stored rows in range that satisfy the query, without duplicates, in ascending id order |
| Credentials.GetUserCredentials | server/credentials.ts:65-73 | exactly the caller's active rows, without duplicates, in ascending id order, or nothing without a connection |
| Credentials.GetCredentialsByPlatform | server/credentials.ts:78-95 | exactly the caller's active rows on the platform, without duplicates, in ascending id order, or nothing without a connection |
| Credentials.SelectByPlatformFilters | server/credentials.ts:85-94 | the platform query equals the owner query filtered by platform over any id range |
| Credentials.PlatformListingFiltersUserListing | server/credentials.ts:78-95 | the platform listing is the owner listing filtered by platform, same order, hence a subset of it |
| Credentials.UpdatedSecretReadsBack | server/credentials.ts:100-126 | a secret the owner replaces through updateCredential reads back as the new secret through getDecryptedCredential |
| Credentials.UpdateCredential | server/credentials.ts:100-126 | changes only the row matching both id and owner, so a non-owner's update changes nothing; name replaced only when non-empty, secret re-encrypted with the supplied nonce only when non-empty, isActive set whenever given (0 included); rows are never added or removed |
| Credentials.DeleteCredential | server/credentials.ts:131-141 | sets isActive to 0 on the row matching id and owner, never removes a row, returns true whenever a connection exists and false only without one |
| Credentials.SoftDeleteHidesButKeeps | server/credentials.ts:135-138 | after the owner deletes it, the credential is gone from the owner's listing yet still found by id, inactive |
| Credentials.NonOwnerDeleteChangesNothing | server/credentials.ts:131-141 | a delete by someone other than the owner leaves the database unchanged and still answers true |
| Routes.List | server/routers.ts:19-26 | the caller's listing with the same count and order, every record's secret replaced by "***REDACTED***" and all other fields kept |
| Routes.ListShowsExactlyActiveOwned | server/routers.ts:19-26 | a stored credential appears, redacted, in the list iff it is active and owned by the caller |
| Routes.CreateContext | server/routers.ts:38-43 | the governed context of a create carries only the platform and the name, never the secret |
| Routes.Create | server/routers.ts:28-59 | a failing verdict throws "AMA-G Validation Failed: …" with no store call and no audit row; a store exception escapes unlogged; otherwise one active row is created, logged once as create_credential with the new id, and returned redacted |
| Routes.CreateVerdictCases | server/routers.ts:38-47 | a create is rejected iff the user id is not positive (reported first) or the database is unavailable |
| Routes.CreateAuditIgnoresSecret | server/routers.ts:49-56 | the audit trail a create leaves is the same whatever the secret |
| Routes.RouteRejectionLeavesNoAuditRow | server/routers.ts:38-47 | for a rejected create, the route leaves the audit trail untouched while the middleware on the same context appends a failed row |
| Routes.DeleteContext | server/routers.ts:67-73 | the governed context of a delete names the credential id as resource and payload |
| Routes.Delete | server/routers.ts:61-89 | a failing verdict throws without store call or audit row; otherwise the store's soft delete runs, the original passing verdict is logged, and its answer is returned |
| Routes.NonOwnerDeleteReportedAsSuccess | server/routers.ts:79-88 | deleting another user's credential changes no row, yet reports success and logs a pass |

## Left out

- AES-256-GCM and the UTF-8 conversions of the secret are the abstract functions of `Aead`. `Sound` is assumed of them as a precondition, since there are no axioms. Its integrity clause is idealised: the forgery chance a real 4-byte or 16-byte tag leaves is not modelled. The model's strings are sequences of Unicode scalar values, so a JavaScript string with a lone surrogate (which UTF-8 encoding turns into U+FFFD, so that its round trip fails in the source) cannot be expressed.
- The message of `setAuthTag`'s tag-length error and of a failed authentication are left to the abstract `open`.
- SecretCipher.TamperedFrameNeverYieldsOriginal: it does not cover a plaintext containing U+FFFD. `update`/`final` decode UTF-8 leniently (`server/crypto.ts:53-54`), so a frame sealing bytes that are not valid UTF-8 opens to text containing U+FFFD, and that text may equal the plaintext although its sealing is a different frame. Nor does it cover a wrong key: a 16-byte tag cannot separate 2^256 keys, so no consistent assumption makes every other key fail; the model states only that the key must decode to 32 bytes.
- SecretCipher.DecryptCredential: the 128-byte nonce limit is OpenSSL 3's (Node 17 and later). Linked with OpenSSL 1.1.1, Node accepts a longer GCM nonce and then reports a bad key as "Invalid key length"; that older behaviour is not modelled.
- `crypto.randomBytes` becomes the `Nonce` parameter. The model cannot state that the nonce is fresh, only that it is the one stored.
- The key comes from the environment, with a random fallback. The model takes it as an explicit parameter.
- `getDb()`, the driver, timestamps (`createdAt`, `updatedAt`, `lastValidated`) and `console.error` are replaced by the `Db` flags, the row map and the audit sequence. A query on a reachable database is assumed not to throw. Only audit inserts can fail.
- Routes.Create: the source returns null when `createCredential` does. The model has one availability flag, so a passing verdict (which needs a connection) always finds the store up and this branch is never taken.
- The `Promise.all` in `validateWithAMAG` is evaluated sequentially. The rules are independent and are combined by position.
- `JSON.stringify` is modelled for the payloads used here (`undefined`, `null`, strings, integers, flat objects). String escaping is not modelled, nor are the cases where it throws (cycles, BigInt).
- A `NaN` or missing user id is not modelled. User ids are integers, so `!userId || userId <= 0` becomes `userId <= 0`.
- The route input schemas (zod) run before the procedure bodies. They become preconditions: `name` and `apiKey` have at least one character, and the platform is one of three values.
- Routes.Delete: the id schema is `z.number()` (`server/routers.ts:62`), which also admits fractions such as 1.5. The model's ids are integers, so that case is not modelled: such an id passes every rule, matches no row, is reported as `{ success: true }`, and is logged as the resource id.
- Listings are returned in ascending id order. SQL gives no order without ORDER BY, but the contracts fix which rows appear.
- AmaG.AuditCompleteness: whether an audit insert fails is one flag of the database (`auditRejects`), not a property of each row. In the source the insert also fails when the row's user does not exist, because `auditLogs.userId` references `users.id` (`drizzle/schema.ts:126`), and `logOperation` swallows that error (`server/amaG.ts:205-209`). A verity rejection for a user id of 0 or below is such an insert, so its row is not written either; the completeness statement holds only for invocations by existing users.
- Routes.RouteRejectionLeavesNoAuditRow: a signed-in caller's id is an auto-increment key of at least 1 (`drizzle/schema.ts:13`, `server/routers.ts:39`, `server/routers.ts:68`), so in practice the routes reject only when the database is unavailable, and then the middleware writes no row either. The difference the lemma states arises only for contexts the routes never build.
- Concurrent operations on one credential (last write wins at the store) are not modelled. Every operation is atomic on the `Db` value.
- Out of scope: `auth.logout` (cookies), `connections.testConnection` (outbound `fetch`), `status.getOperationalStatus` (a plain select), the React pages, and the ORM table definitions. The enumerations of `drizzle/schema.ts` are kept as datatypes. The `amaGRules` table is never read when rules are evaluated.

## Findings

| source | as written | input that shows it | evidently intended | confidence | as-written member | corrected member |
|---|---|---|---|---|---|---|
| server/crypto.ts:65-67 | `validateEncryptionKey` checks only that the key text has 64 characters | a key of 64 `z` characters: it passes the check, hex-decodes to zero bytes, and every `createCipheriv` throws "Invalid key length" | the key is 32 bytes written as 64 hex digits, so a validated key is one the cipher accepts | medium; not executed | SecretCipher.ValidatedKeyMayBeUnusable | SecretCipher.WellFormedKeyIsUsable |

=== FILE: amag.dfy ===
/** The AMA-G policy engine and governance middleware of `server/amaG.ts`.

    Four rules each map an operation context to a verdict; the aggregate
    passes only if all four pass and otherwise reports the first failing
    rule in the fixed order verity, determinism, noContamination,
    epistemicSecurity. `LogOperation` projects a context and a verdict into
    one audit row, and `WithAMAGValidation` strings evaluation, the guarded
    operation and logging together.

    The database is reached only through `getDb()`; its answer is the flag
    `up` (passed explicitly to the rules) or the state `Db`. The source's
    `Promise.all` evaluates the rules concurrently but combines them by
    position, so the model evaluates them in sequence. */
module AmaG {
  import opened Base
  import opened Schema

  // ---------------------------------------------------------------------
  // Operation payloads and their serialisation

  /** A JSON leaf value carried in an operation payload. */
  datatype JsonValue = JsonString(s: string) | JsonNumber(n: int)

  /** `context.input` as JavaScript sees it at run time: `undefined`,
      `null`, a primitive, or a plain object with flat fields. Arrays (for
      which `typeof` also answers "object" but `JSON.stringify` writes
      `[...]`) are not modelled; no caller passes one. */
  datatype Payload =
    | Undefined
    | Null
    | Primitive(v: JsonValue)
    | Object(fields: seq<(string, JsonValue)>)

  function DecimalDigits(n: nat): (s: string)
    ensures |s| > 0
    decreases n
  {
    var d := [('0' as int + n % 10) as char];
    if n < 10 then d else DecimalDigits(n / 10) + d
  }

  function DecimalText(n: int): (s: string)
    ensures |s| > 0
  {
    if n < 0 then "-" + DecimalDigits(-n) else DecimalDigits(n)
  }

  function JsonText(v: JsonValue): (s: string)
    ensures |s| > 0
  {
    match v
    case JsonString(s) => "\"" + s + "\""
    case JsonNumber(n) => DecimalText(n)
  }

  function MemberList(fields: seq<(string, JsonValue)>): string
  {
    if |fields| == 0 then ""
    else
      var member := "\"" + fields[0].0 + "\":" + JsonText(fields[0].1);
      if |fields| == 1 then member else member + "," + MemberList(fields[1..])
  }

  /** `JSON.stringify(input)`: `undefined` for `undefined`, and otherwise a
      non-empty text. */
  function Serialize(p: Payload): (r: Option<string>)
    ensures r.None? <==> p.Undefined?
    ensures r.Some? ==> |r.value| > 0
  {
    match p
    case Undefined => None
    case Null => Some("null")
    case Primitive(v) => Some(JsonText(v))
    case Object(fields) => Some("{" + MemberList(fields) + "}")
  }

  // ---------------------------------------------------------------------
  // Contexts and verdicts

  datatype OperationContext = OperationContext(
    userId: int,
    action: string,
    resourceType: string,
    resourceId: Option<int>,
    input: Payload,
    ipAddress: Option<string>,
    userAgent: Option<string>)

  datatype RuleType = Verity | Determinism | NoContamination | EpistemicSecurity

  datatype ValidationResult = ValidationResult(passed: bool, reason: string, ruleType: RuleType)

  const INVALID_INPUT: string := "Input must be a valid object"
  const INVALID_USER: string := "Invalid user context"
  const DB_UNAVAILABLE: string := "Database unavailable"
  const EMPTY_INPUT: string := "Input cannot be empty for deterministic operation"
  const ALL_PASSED: string := "All AMA-G rules passed"
  const AGGREGATE_FALLBACK: string := "AMA-G validation failed"
  const REJECTION_PREFIX: string := "AMA-G Validation Failed: "
  const OPERATION_FAILED: string := "Operation failed"

  /** The actions the epistemic-security rule lets through. */
  const ALLOWED_ACTIONS: seq<string> := [
    "create_credential", "read_credential", "update_credential", "delete_credential",
    "create_connection", "test_connection", "update_connection",
    "create_workflow", "execute_workflow", "read_logs", "read_status"]

  /** The actions the no-contamination rule singles out. */
  const RESTRICTED_ACTIONS: seq<string> := ["delete_credential", "update_connection", "execute_workflow"]

  function EpistemicReason(action: string): string {
    "Action \"" + action + "\" is not explicitly allowed"
  }

  // ---------------------------------------------------------------------
  // The four rules

  /** Rule 1: the input must be an object, and only then is the user id
      checked (`!userId || userId <= 0` on an integer is `userId <= 0`). */
  function ValidateVerity(c: OperationContext): (r: ValidationResult)
    ensures r.ruleType == Verity && |r.reason| > 0
    ensures r.passed <==> c.input.Object? && c.userId > 0
    ensures !c.input.Object? ==> r.reason == INVALID_INPUT
    ensures c.input.Object? && c.userId <= 0 ==> r.reason == INVALID_USER
  {
    if c.input.Undefined? || c.input.Null? || c.input.Primitive? then
      ValidationResult(false, INVALID_INPUT, Verity)
    else if c.userId == 0 || c.userId <= 0 then
      ValidationResult(false, INVALID_USER, Verity)
    else
      ValidationResult(true, "Input is traceable and coherent", Verity)
  }

  /** Rule 2: the database must be reachable and the serialised input
      non-empty. */
  function ValidateDeterminism(c: OperationContext, up: bool): (r: ValidationResult)
    ensures r.ruleType == Determinism && |r.reason| > 0
    ensures !up ==> !r.passed && r.reason == DB_UNAVAILABLE
    ensures up ==> (r.passed <==> !c.input.Undefined?)
    ensures up && !r.passed ==> r.reason == EMPTY_INPUT
  {
    if !up then ValidationResult(false, DB_UNAVAILABLE, Determinism)
    else
      var inputHash := Serialize(c.input);
      if inputHash.None? || |inputHash.value| == 0 then
        ValidationResult(false, EMPTY_INPUT, Determinism)
      else
        ValidationResult(true, "Operation is deterministic", Determinism)
  }

  /** Rule 3: the ownership question is left to the store, so this rule
      only chooses between two passing reasons. */
  function ValidateNoContamination(c: OperationContext): (r: ValidationResult)
    ensures r.passed && r.ruleType == NoContamination && |r.reason| > 0
  {
    if c.action in RESTRICTED_ACTIONS && c.resourceId.Some? && c.resourceId.value != 0 && c.userId != 0 then
      ValidationResult(true, "Resource ownership verified", NoContamination)
    else
      ValidationResult(true, "No contamination detected", NoContamination)
  }

  /** Rule 4: only the listed actions are allowed; the failure names the action. */
  function ValidateEpistemicSecurity(c: OperationContext): (r: ValidationResult)
    ensures r.ruleType == EpistemicSecurity && |r.reason| > 0
    ensures r.passed <==> c.action in ALLOWED_ACTIONS
    ensures !r.passed ==> r.reason == EpistemicReason(c.action)
  {
    if c.action !in ALLOWED_ACTIONS then
      ValidationResult(false, EpistemicReason(c.action), EpistemicSecurity)
    else
      ValidationResult(true, "Operation is explicitly allowed", EpistemicSecurity)
  }

  // ---------------------------------------------------------------------
  // Aggregation

  /** The four verdicts in the position `Promise.all` gives them. */
  function Rules(c: OperationContext, up: bool): seq<ValidationResult> {
    [ValidateVerity(c), ValidateDeterminism(c, up), ValidateNoContamination(c), ValidateEpistemicSecurity(c)]
  }

  /** `validations.find(v => !v.passed)` as an index; `|vs|` when none fails. */
  function FirstFailingIndex(vs: seq<ValidationResult>): (i: nat)
    ensures i <= |vs|
    ensures forall j :: 0 <= j < i ==> vs[j].passed
    ensures i < |vs| ==> !vs[i].passed
  {
    if |vs| == 0 then 0
    else if !vs[0].passed then 0
    else 1 + FirstFailingIndex(vs[1..])
  }

  /** `validateWithAMAG`: passes iff every rule passes; otherwise reports
      the first failing rule in the order verity, determinism,
      noContamination, epistemicSecurity. A pass is always tagged verity. */
  function ValidateWithAMAG(c: OperationContext, up: bool): (r: ValidationResult)
    ensures r.passed <==>
      ValidateVerity(c).passed && ValidateDeterminism(c, up).passed &&
      ValidateNoContamination(c).passed && ValidateEpistemicSecurity(c).passed
    ensures r.passed ==> r == ValidationResult(true, ALL_PASSED, Verity)
    ensures !ValidateVerity(c).passed ==> r == ValidateVerity(c)
    ensures ValidateVerity(c).passed && !ValidateDeterminism(c, up).passed ==>
      r == ValidateDeterminism(c, up)
    ensures ValidateVerity(c).passed && ValidateDeterminism(c, up).passed &&
            !ValidateEpistemicSecurity(c).passed ==>
      r == ValidateEpistemicSecurity(c)
  {
    var vs := Rules(c, up);
    assert vs[0] == ValidateVerity(c) && vs[1] == ValidateDeterminism(c, up);
    assert vs[2] == ValidateNoContamination(c) && vs[3] == ValidateEpistemicSecurity(c);
    var i := FirstFailingIndex(vs);
    if i == |vs| then
      ValidationResult(true, ALL_PASSED, Verity)
    else
      var failed := vs[i];
      ValidationResult(false, if failed.reason != "" then failed.reason else AGGREGATE_FALLBACK, failed.ruleType)
  }

  /** The aggregate never depends on the resource type, the resource id or
      the caller metadata: two contexts that agree on user, action and input
      get the same verdict against the same database state. */
  lemma VerdictDependsOnlyOnUserActionInput(c1: OperationContext, c2: OperationContext, up: bool)
    requires c1.userId == c2.userId && c1.action == c2.action && c1.input == c2.input
    ensures ValidateWithAMAG(c1, up) == ValidateWithAMAG(c2, up)
  {
  }

  /** The closed vocabulary behind the allow-list. */
  datatype Action =
    | CreateCredential | ReadCredential | UpdateCredential | DeleteCredential
    | CreateConnection | TestConnection | UpdateConnection
    | CreateWorkflow | ExecuteWorkflow | ReadLogs | ReadStatus

  function ActionName(a: Action): string {
    match a
    case CreateCredential => "create_credential"
    case ReadCredential => "read_credential"
    case UpdateCredential => "update_credential"
    case DeleteCredential => "delete_credential"
    case CreateConnection => "create_connection"
    case TestConnection => "test_connection"
    case UpdateConnection => "update_connection"
    case CreateWorkflow => "create_workflow"
    case ExecuteWorkflow => "execute_workflow"
    case ReadLogs => "read_logs"
    case ReadStatus => "read_status"
  }

  function ParseAction(s: string): (r: Option<Action>)
    ensures r.Some? ==> ActionName(r.value) == s
  {
    if s == "create_credential" then Some(CreateCredential)
    else if s == "read_credential" then Some(ReadCredential)
    else if s == "update_credential" then Some(UpdateCredential)
    else if s == "delete_credential" then Some(DeleteCredential)
    else if s == "create_connection" then Some(CreateConnection)
    else if s == "test_connection" then Some(TestConnection)
    else if s == "update_connection" then Some(UpdateConnection)
    else if s == "create_workflow" then Some(CreateWorkflow)
    else if s == "execute_workflow" then Some(ExecuteWorkflow)
    else if s == "read_logs" then Some(ReadLogs)
    else if s == "read_status" then Some(ReadStatus)
    else None
  }

  /** The string allow-list is exactly the image of the closed action
      vocabulary: the epistemic rule passes iff the action name parses, and
      every action's name parses back to that action. */
  lemma AllowListIsActionVocabulary(c: OperationContext, a: Action)
    ensures ValidateEpistemicSecurity(c).passed <==> ParseAction(c.action).Some?
    ensures ParseAction(ActionName(a)) == Some(a)
  {
  }

  // ---------------------------------------------------------------------
  // Audit logging

  /** The audit row `logOperation` builds: the verdict survives only as
      `passed` or `failed`; its reason and rule type are not stored. */
  function AuditProjection(c: OperationContext, v: ValidationResult): AuditEntry {
    AuditEntry(c.userId, c.action, c.resourceType, c.resourceId, Serialize(c.input),
               if v.passed then Passed else Failed, c.ipAddress, c.userAgent)
  }

  /** Whether an audit insert against `db` takes effect. */
  predicate Records(db: Db) {
    db.up && !db.auditRejects
  }

  /** `logOperation`: nothing without a database; otherwise one insert,
      whose failure is caught and swallowed. Only the audit trail changes. */
  function LogOperation(db: Db, c: OperationContext, v: ValidationResult): (r: Db)
    ensures r.up == db.up && r.auditRejects == db.auditRejects
    ensures r.rows == db.rows && r.nextId == db.nextId
    ensures |r.audit| == |db.audit| + (if Records(db) then 1 else 0)
    ensures r.audit[..|db.audit|] == db.audit
    ensures Records(db) ==>
      var e := r.audit[|db.audit|];
      && e.userId == c.userId && e.action == c.action && e.resourceType == c.resourceType
      && e.resourceId == c.resourceId && e.details == Serialize(c.input)
      && e.ipAddress == c.ipAddress && e.userAgent == c.userAgent
      && (e.amaGValidation == Passed <==> v.passed)
      && e.amaGValidation != Blocked
  {
    if !db.up then db
    else
      var entry := AuditProjection(c, v);
      if db.auditRejects then db  // insert threw; the error is only printed
      else db.(audit := db.audit + [entry])
  }

  // ---------------------------------------------------------------------
  // The middleware

  /** The verdict logged when the guarded operation throws. */
  function FailedVerdict(e: Exception): (v: ValidationResult)
    ensures !v.passed && v.ruleType == Verity
    ensures e.Error? ==> v.reason == e.message
  {
    ValidationResult(false, if e.Error? then e.message else OPERATION_FAILED, Verity)
  }

  /** `withAMAGValidation`: evaluate; on a failing verdict log it and throw;
      otherwise run the operation, log the passing verdict if it returns,
      or log a failed verdict and rethrow its exception unchanged if it throws. */
  function WithAMAGValidation<T>(db: Db, c: OperationContext, op: Db -> Step<T>): (r: Step<T>)
    ensures var v := ValidateWithAMAG(c, db.up);
      !v.passed ==>
        && r.out == Threw(Error(REJECTION_PREFIX + v.reason))
        && r.db.up == db.up && r.db.rows == db.rows && r.db.nextId == db.nextId
        && |r.db.audit| == |db.audit| + (if Records(db) then 1 else 0)
        && r.db.audit[..|db.audit|] == db.audit
        && (Records(db) ==> r.db.audit[|db.audit|] == AuditProjection(c, v))
    ensures var v := ValidateWithAMAG(c, db.up);
      v.passed ==>
        var s := op(db);
        && r.out == s.out
        && r.db.up == s.db.up && r.db.rows == s.db.rows && r.db.nextId == s.db.nextId
        && |r.db.audit| == |s.db.audit| + (if Records(s.db) then 1 else 0)
        && r.db.audit[..|s.db.audit|] == s.db.audit
        && (Records(s.db) ==>
              r.db.audit[|s.db.audit|].action == c.action
              && (r.db.audit[|s.db.audit|].amaGValidation == Passed <==> s.out.Returned?)
              && r.db.audit == s.db.audit +
                   [AuditProjection(c, if s.out.Returned? then v else FailedVerdict(s.out.exception))])
  {
    var v := ValidateWithAMAG(c, db.up);
    if !v.passed then
      Step(LogOperation(db, c, v), Threw(Error(REJECTION_PREFIX + v.reason)))
    else
      var s := op(db);
      match s.out
      case Returned(_) => Step(LogOperation(s.db, c, v), s.out)
      case Threw(e) => Step(LogOperation(s.db, c, FailedVerdict(e)), s.out)
  }

  /** A guarded operation that neither writes the audit trail nor changes
      whether the database is reachable or accepts audit rows. */
  ghost predicate LeavesAuditAlone<T>(op: Db -> Step<T>) {
    forall d: Db {:trigger op(d)} ::
      op(d).db.audit == d.audit && op(d).db.up == d.up && op(d).db.auditRejects == d.auditRejects
  }

  datatype Invocation<T> = Invocation(ctx: OperationContext, op: Db -> Step<T>)

  /** A sequence of governed invocations run one after another. */
  function RunAll<T>(db: Db, calls: seq<Invocation<T>>): (r: (Db, seq<Outcome<T>>))
    ensures |r.1| == |calls|
    decreases |calls|
  {
    if |calls| == 0 then (db, [])
    else
      var s := WithAMAGValidation(db, calls[0].ctx, calls[0].op);
      var rest := RunAll(s.db, calls[1..]);
      (rest.0, [s.out] + rest.1)
  }

  /** One governed invocation against a recording database appends
      exactly one entry and leaves the database recording. */
  lemma OneInvocationOneEntry<T>(db: Db, call: Invocation<T>)
    requires Records(db) && LeavesAuditAlone(call.op)
    ensures var s := WithAMAGValidation(db, call.ctx, call.op);
      && Records(s.db)
      && s.db.audit == db.audit + [s.db.audit[|db.audit|]]
      && s.db.audit[|db.audit|].action == call.ctx.action
      && (s.db.audit[|db.audit|].amaGValidation == Passed <==> s.out.Returned?)
  {
  }

  /** `after` is `before` followed by one entry per call, in order, each
      naming its call's action and marked passed exactly when that call
      returned normally. */
  ghost predicate AppendedPerCall<T>(before: seq<AuditEntry>, after: seq<AuditEntry>,
                                     calls: seq<Invocation<T>>, outs: seq<Outcome<T>>)
  {
    && |outs| == |calls|
    && |after| == |before| + |calls|
    && after[..|before|] == before
    && forall i :: 0 <= i < |calls| ==>
         after[|before| + i].action == calls[i].ctx.action
         && (after[|before| + i].amaGValidation == Passed <==> outs[i].Returned?)
  }

  /** One call's entry, in the form the sequence statement composes. */
  lemma OneInvocationAppends<T>(db: Db, call: Invocation<T>)
    requires Records(db) && LeavesAuditAlone(call.op)
    ensures var s := WithAMAGValidation(db, call.ctx, call.op);
      Records(s.db) && AppendedPerCall(db.audit, s.db.audit, [call], [s.out])
  {
    OneInvocationOneEntry(db, call);
  }

  /** Entries appended in two runs, one after the other, are the entries
      of the two runs' calls in sequence. */
  lemma AppendedPerCallJoin<T>(before: seq<AuditEntry>, mid: seq<AuditEntry>, after: seq<AuditEntry>,
                               c1: seq<Invocation<T>>, o1: seq<Outcome<T>>,
                               c2: seq<Invocation<T>>, o2: seq<Outcome<T>>)
    requires AppendedPerCall(before, mid, c1, o1)
    requires AppendedPerCall(mid, after, c2, o2)
    ensures AppendedPerCall(before, after, c1 + c2, o1 + o2)
  {
    var (calls, outs) := (c1 + c2, o1 + o2);
    assert after[..|before|] == mid[..|before|] by {
      assert after[..|before|] == after[..|mid|][..|before|];
    }
    forall i | 0 <= i < |calls|
      ensures after[|before| + i].action == calls[i].ctx.action
      ensures after[|before| + i].amaGValidation == Passed <==> outs[i].Returned?
    {
      if i < |c1| {
        assert after[|before| + i] == mid[|before| + i];
        assert calls[i] == c1[i] && outs[i] == o1[i];
      } else {
        var j := i - |c1|;
        assert after[|before| + i] == after[|mid| + j];
        assert calls[i] == c2[j] && outs[i] == o2[j];
      }
    }
  }

  /** The guard on every call carries over to the calls after the first. */
  lemma TailLeavesAuditAlone<T>(calls: seq<Invocation<T>>)
    requires |calls| > 0
    requires forall i :: 0 <= i < |calls| ==> LeavesAuditAlone(calls[i].op)
    ensures forall i :: 0 <= i < |calls[1..]| ==> LeavesAuditAlone(calls[1..][i].op)
  {
    forall i | 0 <= i < |calls[1..]| ensures LeavesAuditAlone(calls[1..][i].op) {
      assert calls[1..][i] == calls[i + 1];
    }
  }

  /** Audit completeness: with the database up and accepting inserts, N
      governed invocations (accepted, rejected or failing) append exactly N
      entries, in order, each naming its invocation's action and marked
      passed exactly when that invocation returned normally. */
  lemma {:induction false} AuditCompleteness<T>(db: Db, calls: seq<Invocation<T>>)
    requires Records(db)
    requires forall i :: 0 <= i < |calls| ==> LeavesAuditAlone(calls[i].op)
    ensures AppendedPerCall(db.audit, RunAll(db, calls).0.audit, calls, RunAll(db, calls).1)
    decreases |calls|
  {
    if |calls| == 0 {
      assert db.audit[..|db.audit|] == db.audit;
    } else {
      var s := WithAMAGValidation(db, calls[0].ctx, calls[0].op);
      var tail := calls[1..];
      var rest := RunAll(s.db, tail);
      assert RunAll(db, calls) == (rest.0, [s.out] + rest.1);
      OneInvocationAppends(db, calls[0]);
      TailLeavesAuditAlone(calls);
      AuditCompleteness(s.db, tail);
      AppendedPerCallJoin(db.audit, s.db.audit, rest.0.audit, [calls[0]], [s.out], tail, rest.1);
      assert [calls[0]] + tail == calls;
    }
  }
}

=== FILE: base.dfy ===
/** Failure-carrying values shared by every module of the model.

    TypeScript signals absence with `null` and failure with a thrown
    exception; the model makes both explicit values. */
module Base {

  /** A value that may be absent (`T | null` in the source). */
  datatype Option<+T> = None | Some(value: T)

  /** A computation that either produced a value or failed with a message. */
  datatype Result<+T> = Ok(value: T) | Err(message: string)

  /** Something a JavaScript `throw` can raise: an `Error` object, which
      carries a message, or any other value, which does not. */
  datatype Exception = Error(message: string) | NonErrorValue

  /** How an `async` function of the source ends: it resolves with a
      value or it rejects with an exception. */
  datatype Outcome<+T> = Returned(value: T) | Threw(exception: Exception)

  /** JavaScript's `s.length`: UTF-16 code units, so a character outside
      the Basic Multilingual Plane counts twice. */
  function Utf16Length(s: string): (n: nat)
    ensures n >= |s|
    ensures (forall i :: 0 <= i < |s| ==> s[i] as int < 0x1_0000) ==> n == |s|
  {
    if |s| == 0 then 0
    else (if s[0] as int < 0x1_0000 then 1 else 2) + Utf16Length(s[1..])
  }

  /** `s` begins with `prefix`. */
  predicate StartsWith(s: string, prefix: string) {
    |prefix| <= |s| && s[..|prefix|] == prefix
  }
}

=== FILE: cipher.dfy ===
/** The secret cipher of `server/crypto.ts`: AES-256-GCM envelope
    encryption of one credential secret.

    The block cipher itself (NIST SP 800-38D, sections 7.1 and 7.2) and the
    UTF-8 conversions around it are not modelled: they are the abstract
    functions of `Aead`, and `Sound` states what the model relies on of
    them. The model states explicitly what the source itself does: the
    12-byte nonce written as 24 hex characters, the frame
    `hex(ciphertext) + hex(tag)`, splitting the trailing tag off again with
    Node's `slice` semantics, the nonce and key checks `createDecipheriv`
    makes before any cryptography (an empty nonce or one over OpenSSL 3's
    GCM limit, then a key that is not 32 bytes), and the error wrapping.
    Every later failure (tag length, authentication) is the abstract
    `open`'s error message. */
module SecretCipher {
  import opened Base
  import opened Hex

  const AUTH_TAG_LENGTH: nat := 16
  const IV_LENGTH: nat := 12
  /** The longest GCM nonce OpenSSL 3 accepts, in bytes; Node reports a
      longer one as an invalid initialization vector. */
  const GCM_IV_MAX_LENGTH: nat := 128
  /** AES-256 takes a 32-byte key; the process supplies it as hex text. */
  const KEY_LENGTH: nat := 32
  /** What `validateEncryptionKey` compares the key text's length with. */
  const KEY_HEX_LENGTH: nat := 64

  const DECRYPT_FAILURE_PREFIX: string := "Failed to decrypt credential: "
  /** Node's message when `createCipheriv`/`createDecipheriv` get a key of the wrong size. */
  const INVALID_KEY_LENGTH: string := "Invalid key length"
  /** Node's message when `createDecipheriv` gets a nonce GCM cannot take;
      the nonce is checked before the key. */
  const INVALID_IV: string := "Invalid initialization vector"

  /** The per-secret nonce `crypto.randomBytes(IV_LENGTH)`; the randomness
      itself is a parameter of every operation that needs one. */
  type Nonce = s: seq<byte> | |s| == IV_LENGTH witness seq(12, _ => 0 as byte)

  /** The tag lengths `setAuthTag` accepts for GCM when no `authTagLength`
      was given: 4, 8, or 12 to 16 bytes. */
  predicate ValidTagLength(n: int) {
    n == 4 || n == 8 || 12 <= n <= AUTH_TAG_LENGTH
  }

  /** Node's AES-256-GCM together with the UTF-8 conversions that
      `update`/`final` perform around it.
      `seal(key, iv, bytes)` is `update` + `final` + `getAuthTag()` on the
      plaintext's bytes: the ciphertext and the 16-byte tag.
      `open(key, iv, ciphertext, tag)` is `setAuthTag` + `update` + `final`:
      the authenticated plaintext bytes, or the message of the error thrown.
      `utf8(s)` is `s`'s UTF-8 encoding; `fromUtf8(bs)` is Node's lenient
      decoding, which turns every invalid sequence into U+FFFD. */
  datatype Aead = Aead(
    seal: (seq<byte>, seq<byte>, seq<byte>) -> (seq<byte>, seq<byte>),
    open: (seq<byte>, seq<byte>, seq<byte>, seq<byte>) -> Result<seq<byte>>,
    utf8: string -> seq<byte>,
    fromUtf8: seq<byte> -> string)

  /** The replacement character lenient UTF-8 decoding produces. */
  const REPLACEMENT_CHAR: char := '\U{FFFD}'

  /** What AES-GCM and UTF-8 guarantee and the model assumes:
      - sealing keeps the plaintext's length and makes 16-byte tags;
      - (correctness, truncation included) the ciphertext of a sealing opens
        to its plaintext under the full tag or any prefix of it of a length
        `setAuthTag` accepts;
      - (nonce binding) under one key, one ciphertext sealed under two
        different 12-byte nonces carries two different tags: the tags
        differ by the encryptions of the two distinct counter blocks J0;
      - (idealised integrity) `open` succeeds only for such a ciphertext and
        tag prefix;
      - decoding the encoding of a string gives it back, the empty byte
        string decodes to the empty string, and bytes that decode without a
        replacement character are the encoding of what they decode to. */
  ghost predicate Sound(a: Aead) {
    && (forall k, iv, m :: |a.seal(k, iv, m).0| == |m| && |a.seal(k, iv, m).1| == AUTH_TAG_LENGTH)
    && (forall k, iv, m, t :: ValidTagLength(|t|) && t <= a.seal(k, iv, m).1 ==>
          a.open(k, iv, a.seal(k, iv, m).0, t) == Ok(m))
    && (forall k, iv1, iv2, m1, m2 ::
          |iv1| == IV_LENGTH && |iv2| == IV_LENGTH && iv1 != iv2 &&
          a.seal(k, iv1, m1).0 == a.seal(k, iv2, m2).0 ==>
            a.seal(k, iv1, m1).1 != a.seal(k, iv2, m2).1)
    && (forall k, iv, c, t :: a.open(k, iv, c, t).Ok? ==>
          && ValidTagLength(|t|)
          && a.seal(k, iv, a.open(k, iv, c, t).value).0 == c
          && t <= a.seal(k, iv, a.open(k, iv, c, t).value).1)
    && (forall s :: a.fromUtf8(a.utf8(s)) == s)
    && a.fromUtf8([]) == ""
    && (forall bs :: REPLACEMENT_CHAR !in a.fromUtf8(bs) ==> a.utf8(a.fromUtf8(bs)) == bs)
  }

  /** What `encryptCredential` returns. */
  datatype Encrypted = Encrypted(encrypted: string, iv: string)

  /** `encryptCredential`: the key text is hex-decoded; `createCipheriv`
      throws unless that gives 32 bytes. Otherwise the result is the hex of
      the ciphertext followed by the hex of the tag, and the hex of the nonce. */
  function EncryptCredential(a: Aead, key: string, iv: Nonce, plaintext: string): (r: Result<Encrypted>)
    ensures r.Err? <==> |Decode(key)| != KEY_LENGTH
    ensures r.Err? ==> r.message == INVALID_KEY_LENGTH
    ensures r.Ok? ==> |r.value.iv| == 2 * IV_LENGTH && Decode(r.value.iv) == iv
    ensures r.Ok? ==>
      var (ct, tag) := a.seal(Decode(key), iv, a.utf8(plaintext));
      r.value.encrypted == Encode(ct + tag)
    ensures r.Ok? && Sound(a) ==>
      |r.value.encrypted| == 2 * |a.utf8(plaintext)| + 2 * AUTH_TAG_LENGTH
  {
    var keyBytes := Decode(key);
    if |keyBytes| != KEY_LENGTH then Err(INVALID_KEY_LENGTH)
    else
      var (ct, tag) := a.seal(keyBytes, iv, a.utf8(plaintext));
      EncodeAppend(ct, tag);
      DecodeEncode(iv);
      Ok(Encrypted(Encode(ct) + Encode(tag), Encode(iv)))
  }

  /** `buf.slice(-16)` and `buf.slice(0, -16)`: the trailing tag and the
      ciphertext before it. On a buffer shorter than 16 bytes Node clamps
      both ends to 0, so the "tag" is the whole buffer and the data is empty. */
  function SplitTag(b: seq<byte>): (parts: (seq<byte>, seq<byte>))
    ensures |b| >= AUTH_TAG_LENGTH ==> parts.0 + parts.1 == b && |parts.1| == AUTH_TAG_LENGTH
    ensures |b| < AUTH_TAG_LENGTH ==> parts.0 == [] && parts.1 == b
  {
    if |b| >= AUTH_TAG_LENGTH then (b[..|b| - AUTH_TAG_LENGTH], b[|b| - AUTH_TAG_LENGTH..])
    else ([], b)
  }

  /** Splitting recovers exactly what framing concatenated. */
  lemma SplitTagOfFrame(ct: seq<byte>, tag: seq<byte>)
    requires |tag| == AUTH_TAG_LENGTH
    ensures SplitTag(ct + tag) == (ct, tag)
  {
  }

  /** `decryptCredential`: every failure inside the `try` (unusable nonce,
      bad key, failed authentication, malformed input) is rethrown as one
      error whose message carries the fixed prefix. A frame of at least 16
      bytes yields text only when it is the sealing of bytes that decode to
      that text; a shorter frame is all tag, so it yields only the empty
      text, and only when it is an accepted prefix of the tag of sealing
      nothing. */
  function DecryptCredential(a: Aead, key: string, encrypted: string, iv: string): (r: Result<string>)
    ensures r.Err? ==> StartsWith(r.message, DECRYPT_FAILURE_PREFIX)
    ensures !(0 < |Decode(iv)| <= GCM_IV_MAX_LENGTH) ==> r == Err(DECRYPT_FAILURE_PREFIX + INVALID_IV)
    ensures 0 < |Decode(iv)| <= GCM_IV_MAX_LENGTH && |Decode(key)| != KEY_LENGTH ==>
      r == Err(DECRYPT_FAILURE_PREFIX + INVALID_KEY_LENGTH)
    ensures r.Ok? ==> |Decode(key)| == KEY_LENGTH && 0 < |Decode(iv)| <= GCM_IV_MAX_LENGTH
    // fail closed on a full frame
    ensures Sound(a) && r.Ok? && |Decode(encrypted)| >= AUTH_TAG_LENGTH ==>
      exists m :: a.seal(Decode(key), Decode(iv), m) == SplitTag(Decode(encrypted)) && a.fromUtf8(m) == r.value
    // a short frame is a truncated tag over empty data
    ensures Sound(a) && r.Ok? && |Decode(encrypted)| < AUTH_TAG_LENGTH ==>
      && r.value == ""
      && ValidTagLength(|Decode(encrypted)|)
      && Decode(encrypted) <= a.seal(Decode(key), Decode(iv), []).1
  {
    var (data, tag) := SplitTag(Decode(encrypted));
    var keyBytes := Decode(key);
    var ivBytes := Decode(iv);
    if !(0 < |ivBytes| <= GCM_IV_MAX_LENGTH) then Err(DECRYPT_FAILURE_PREFIX + INVALID_IV)
    else if |keyBytes| != KEY_LENGTH then Err(DECRYPT_FAILURE_PREFIX + INVALID_KEY_LENGTH)
    else
      // the source re-encodes the data to hex and feeds it back as hex
      DecodeEncode(data);
      assert Decode(Encode(data)) == data;
      match a.open(keyBytes, ivBytes, Decode(Encode(data)), tag)
      case Ok(m) =>
        OpenedFrameIsSealing(a, keyBytes, ivBytes, Decode(encrypted), m);
        Ok(a.fromUtf8(m))
      case Err(msg) => Err(DECRYPT_FAILURE_PREFIX + msg)
  }

  /** What a successful `open` of a split frame tells about it under `Sound`. */
  lemma OpenedFrameIsSealing(a: Aead, k: seq<byte>, iv: seq<byte>, b: seq<byte>, m: seq<byte>)
    requires a.open(k, iv, SplitTag(b).0, SplitTag(b).1) == Ok(m)
    ensures Sound(a) && |b| >= AUTH_TAG_LENGTH ==> a.seal(k, iv, m) == SplitTag(b)
    ensures Sound(a) && |b| < AUTH_TAG_LENGTH ==>
      m == [] && a.fromUtf8(m) == "" && ValidTagLength(|b|) && b <= a.seal(k, iv, []).1
  {
    if Sound(a) {
      var (data, tag) := SplitTag(b);
      assert ValidTagLength(|tag|);
      assert a.seal(k, iv, m).0 == data && tag <= a.seal(k, iv, m).1;
      if |b| < AUTH_TAG_LENGTH {
        assert |m| == |a.seal(k, iv, m).0| == 0;
        assert m == [];
        assert tag == b;
        assert a.seal(k, iv, m) == a.seal(k, iv, []);
      } else {
        assert |a.seal(k, iv, m).1| == |tag|;
        assert a.seal(k, iv, m).1 == tag;
      }
    }
  }

  /** Round trip: under one key the cipher accepts, decrypting what
      encryption produced gives the plaintext back. */
  lemma RoundTrip(a: Aead, key: string, iv: Nonce, plaintext: string)
    requires Sound(a)
    requires |Decode(key)| == KEY_LENGTH
    ensures EncryptCredential(a, key, iv, plaintext).Ok?
    ensures
      var e := EncryptCredential(a, key, iv, plaintext).value;
      DecryptCredential(a, key, e.encrypted, e.iv) == Ok(plaintext)
  {
    var keyBytes := Decode(key);
    var bytes := a.utf8(plaintext);
    var (ct, tag) := a.seal(keyBytes, iv, bytes);
    var e := EncryptCredential(a, key, iv, plaintext).value;
    DecodeEncode(ct + tag);
    DecodeEncode(iv);
    SplitTagOfFrame(ct, tag);
    assert e.encrypted == Encode(ct + tag);
    assert SplitTag(Decode(e.encrypted)) == (ct, tag);
    assert Decode(e.iv) == iv;
    DecodeEncode(ct);
    assert a.open(keyBytes, iv, Decode(Encode(ct)), tag) == Ok(bytes);
  }

  /** Tamper detection: if the full frame handed to decryption differs
      from the sealing of `plaintext` under the nonce given with it,
      decryption does not return `plaintext`. A short frame never yields a
      non-empty plaintext. Lenient decoding is why the plaintext must not
      hold U+FFFD: bytes that are not valid UTF-8 decode to text containing
      it. */
  lemma TamperedFrameNeverYieldsOriginal(a: Aead, key: string, plaintext: string,
                                         encrypted: string, ivText: string)
    requires Sound(a)
    requires REPLACEMENT_CHAR !in plaintext
    requires |Decode(encrypted)| >= AUTH_TAG_LENGTH || plaintext != ""
    requires SplitTag(Decode(encrypted)) != a.seal(Decode(key), Decode(ivText), a.utf8(plaintext))
    ensures DecryptCredential(a, key, encrypted, ivText) != Ok(plaintext)
  {
  }

  /** A stored frame presented with any nonce other than the one it was
      encrypted under fails to decrypt, whatever the plaintext. */
  lemma MismatchedNonceFails(a: Aead, key: string, iv1: Nonce, iv2: Nonce, plaintext: string)
    requires Sound(a)
    requires |Decode(key)| == KEY_LENGTH
    requires iv1 != iv2
    ensures EncryptCredential(a, key, iv1, plaintext).Ok?
    ensures DecryptCredential(a, key, EncryptCredential(a, key, iv1, plaintext).value.encrypted, Encode(iv2)).Err?
  {
    var k := Decode(key);
    var (ct, tag) := a.seal(k, iv1, a.utf8(plaintext));
    var e := EncryptCredential(a, key, iv1, plaintext).value;
    DecodeEncode(ct + tag);
    DecodeEncode(iv2);
    SplitTagOfFrame(ct, tag);
    assert SplitTag(Decode(e.encrypted)) == (ct, tag);
  }

  /** A short frame decrypts exactly when it is an accepted prefix of the
      tag of sealing nothing, and then to the empty text. */
  lemma ShortFrameOpensOnlyToEmpty(a: Aead, key: string, encrypted: string, iv: string)
    requires Sound(a)
    requires |Decode(key)| == KEY_LENGTH && 0 < |Decode(iv)| <= GCM_IV_MAX_LENGTH
    requires |Decode(encrypted)| < AUTH_TAG_LENGTH
    ensures var r := DecryptCredential(a, key, encrypted, iv);
      && (r.Ok? <==> ValidTagLength(|Decode(encrypted)|) &&
                     Decode(encrypted) <= a.seal(Decode(key), Decode(iv), []).1)
      && (r.Ok? ==> r.value == "")
  {
    var b := Decode(encrypted);
    var (k, v) := (Decode(key), Decode(iv));
    if ValidTagLength(|b|) && b <= a.seal(k, v, []).1 {
      assert |a.seal(k, v, []).0| == 0;
      DecodeEncode([]);
      assert a.open(k, v, Decode(Encode([])), b) == Ok([]);
    }
  }

  /** The stored frame of an empty secret with its tag cut to 12 bytes
      still decrypts, to the empty secret. */
  lemma TruncatedTagOfEmptySecretOpens(a: Aead, key: string, iv: Nonce)
    requires Sound(a)
    requires |Decode(key)| == KEY_LENGTH
    ensures var tag := a.seal(Decode(key), iv, a.utf8("")).1;
      DecryptCredential(a, key, Encode(tag[..12]), Encode(iv)) == Ok("")
  {
    var k := Decode(key);
    assert a.fromUtf8(a.utf8("")) == "";
    assert |a.seal(k, iv, a.utf8("")).0| == |a.utf8("")|;
    // the encoding of the empty text is empty: it is the sealing of [] that is truncated
    assert a.utf8("") == a.utf8(a.fromUtf8([]));
    assert a.utf8("") == [] by {
      assert REPLACEMENT_CHAR !in a.fromUtf8([]);
    }
    var tag := a.seal(k, iv, []).1;
    DecodeEncode(tag[..12]);
    DecodeEncode(iv);
    ShortFrameOpensOnlyToEmpty(a, key, Encode(tag[..12]), Encode(iv));
  }

  /** `validateEncryptionKey` as written: only the length of the key text
      is checked, counted in UTF-16 units as JavaScript does. A key that
      passes is usable exactly when it is all hex digits; a hex key passes
      exactly when it has 64 digits. */
  function ValidateEncryptionKey(key: string): (ok: bool)
    ensures ok ==> (|Decode(key)| == KEY_LENGTH <==> AllHexDigits(key))
    ensures AllHexDigits(key) ==> (ok <==> |key| == KEY_HEX_LENGTH)
  {
    KeyCheckFacts(key);
    Utf16Length(key) == KEY_HEX_LENGTH
  }

  lemma KeyCheckFacts(key: string)
    ensures Utf16Length(key) == KEY_HEX_LENGTH ==> (|Decode(key)| == KEY_LENGTH <==> AllHexDigits(key))
    ensures AllHexDigits(key) ==> Utf16Length(key) == |key|
  {
    if AllHexDigits(key) {
      assert forall i :: 0 <= i < |key| ==> key[i] as int < 0x1_0000 by {
        forall i | 0 <= i < |key| ensures key[i] as int < 0x1_0000 {
          assert IsHexDigit(key[i]);
        }
      }
    }
    if Utf16Length(key) == KEY_HEX_LENGTH {
      if |Decode(key)| == KEY_LENGTH {
        DecodedBytesNeedHexPrefix(key, KEY_LENGTH);
      }
      if AllHexDigits(key) {
        DecodeWellFormedLength(key);
      }
    }
  }

  /** A 64-character key that is not hex passes `validateEncryptionKey`,
      yet hex-decodes to no bytes, so every encryption with it throws. */
  lemma ValidatedKeyMayBeUnusable(a: Aead, iv: Nonce, plaintext: string)
    ensures var key := seq(KEY_HEX_LENGTH, _ => 'z');
      ValidateEncryptionKey(key) && EncryptCredential(a, key, iv, plaintext) == Err(INVALID_KEY_LENGTH)
  {
  }

  /** The converse gap: 65 hex digits fail the check, yet Node drops the odd
      digit, the key decodes to 32 bytes, and encryption succeeds. */
  lemma UsableKeyMayFailValidation(a: Aead, iv: Nonce, plaintext: string)
    ensures var key := seq(KEY_HEX_LENGTH + 1, _ => 'a');
      !ValidateEncryptionKey(key) && EncryptCredential(a, key, iv, plaintext).Ok?
  {
    var key := seq(KEY_HEX_LENGTH + 1, _ => 'a');
    HexPrefixDecodes(key, KEY_LENGTH);
  }

  /** The evident intent of the key check: 32 bytes written as 64 hex digits. */
  predicate IsWellFormedKey(key: string) {
    |key| == KEY_HEX_LENGTH && AllHexDigits(key)
  }

  /** A well-formed key passes the source's check and is accepted by the
      cipher, so encryption with it never throws and round-trips. */
  lemma WellFormedKeyIsUsable(key: string)
    requires IsWellFormedKey(key)
    ensures ValidateEncryptionKey(key)
    ensures |Decode(key)| == KEY_LENGTH
    ensures forall a: Aead, iv: Nonce, p: string :: EncryptCredential(a, key, iv, p).Ok?
  {
    DecodeWellFormedLength(key);
  }
}

=== FILE: credentials.dfy ===
/** The credential store adapter of `server/credentials.ts`.

    CRUD over credential rows, scoped by owner and by the active flag, with
    soft delete. Secrets go through `SecretCipher` on the way in and out.
    Every operation first asks for a database connection; without one it
    returns its "nothing" value (`null`, `[]` or `false`). */
module Credentials {
  import opened Base
  import opened Hex
  import opened Schema
  import opened SecretCipher

  const ACTIVE: int := 1
  const INACTIVE: int := 0

  /** `getCredentialById`: the row with that primary key, or null. */
  function GetCredentialById(db: Db, id: int): (r: Option<Credential>)
    ensures r.Some? <==> db.up && id in db.rows
    ensures r.Some? ==> r.value == db.rows[id] && r.value.id == id
  {
    if !db.up || id !in db.rows then None else Some(db.rows[id])
  }

  /** `createCredential`: encrypt the secret, insert an active row under the
      next auto-increment id, and read that row back. An encryption error
      (a key that is not 32 bytes) propagates as an exception. */
  function CreateCredential(db: Db, a: Aead, key: string, iv: Nonce,
                            userId: int, platform: Platform, name: string, apiKey: string)
    : (r: Step<Option<Credential>>)
    ensures r.db.up == db.up && r.db.auditRejects == db.auditRejects && r.db.audit == db.audit
    ensures !db.up ==> r == Step(db, Returned(None))
    ensures db.up && |Decode(key)| != KEY_LENGTH ==> r == Step(db, Threw(Error(INVALID_KEY_LENGTH)))
    ensures db.up && |Decode(key)| == KEY_LENGTH ==>
      && r.out.Returned? && r.out.value.Some?
      && var c := r.out.value.value;
      && var e := EncryptCredential(a, key, iv, apiKey).value;
      && c.id == db.nextId && c.id !in db.rows
      && r.db.rows == db.rows[c.id := c]
      && r.db.nextId == db.nextId + 1
      && c == Credential(c.id, userId, platform, name, e.encrypted, e.iv, ACTIVE)
  {
    if !db.up then Step(db, Returned(None))
    else
      match EncryptCredential(a, key, iv, apiKey)
      case Err(m) => Step(db, Threw(Error(m)))
      case Ok(e) =>
        var id := db.nextId;
        var row := Credential(id, userId, platform, name, e.encrypted, e.iv, ACTIVE);
        var db' := db.(rows := db.rows[id := row], nextId := id + 1);
        Step(db', Returned(GetCredentialById(db', id)))
  }

  /** `getDecryptedCredential`: the decrypted secret of the row, or null
      when there is no connection, no such row, or decryption throws. */
  function GetDecryptedCredential(db: Db, a: Aead, key: string, id: int): (r: Option<string>)
    ensures !db.up || id !in db.rows ==> r.None?
    ensures db.up && id in db.rows ==>
      var d := DecryptCredential(a, key, db.rows[id].encryptedValue, db.rows[id].encryptionIv);
      (r.Some? <==> d.Ok?) && (r.Some? ==> d == Ok(r.value))
  {
    match GetCredentialById(db, id)
    case None => None
    case Some(c) =>
      match DecryptCredential(a, key, c.encryptedValue, c.encryptionIv)
      case Ok(p) => Some(p)
      case Err(_) => None  // the error is only printed
  }

  /** A secret stored by `createCredential` reads back unchanged through
      `getDecryptedCredential` under the same well-formed key. */
  lemma CreatedSecretReadsBack(db: Db, a: Aead, key: string, iv: Nonce,
                               userId: int, platform: Platform, name: string, apiKey: string)
    requires Sound(a) && |Decode(key)| == KEY_LENGTH && db.up
    ensures var r := CreateCredential(db, a, key, iv, userId, platform, name, apiKey);
      && r.out.Returned? && r.out.value.Some?
      && GetDecryptedCredential(r.db, a, key, r.out.value.value.id) == Some(apiKey)
  {
    RoundTrip(a, key, iv, apiKey);
  }

  // ---------------------------------------------------------------------
  // Listings

  /** The `where` clauses of the two listing queries. */
  datatype Query = ByOwner(userId: int) | ByOwnerAndPlatform(userId: int, platform: Platform)

  predicate Matches(q: Query, c: Credential) {
    && c.userId == q.userId
    && c.isActive == ACTIVE
    && (q.ByOwnerAndPlatform? ==> c.platform == q.platform)
  }

  /** The rows with ids in `[lo, hi)` satisfying `q`, in ascending id order.
      SQL promises no order without ORDER BY; the model fixes the order of a
      primary-key scan. */
  function Select(rows: Table, q: Query, lo: int, hi: int): seq<Credential>
    decreases hi - lo
  {
    if lo >= hi then []
    else
      var rest := Select(rows, q, lo + 1, hi);
      if lo in rows && Matches(q, rows[lo]) then [rows[lo]] + rest else rest
  }

  /** `r` holds exactly the stored rows with ids in `[lo, hi)` that satisfy
      `q`, each once, in ascending id order. */
  ghost predicate ExactSelection(rows: Table, q: Query, lo: int, hi: int, r: seq<Credential>) {
    && (forall i :: 0 <= i < |r| ==>
          lo <= r[i].id < hi && r[i].id in rows && rows[r[i].id] == r[i] && Matches(q, r[i]))
    && (forall i, j :: 0 <= i < j < |r| ==> r[i].id < r[j].id)
    && (forall id :: lo <= id < hi && id in rows && Matches(q, rows[id]) ==> rows[id] in r)
  }

  /** `Select` is an exact selection. */
  lemma {:induction false} SelectExact(rows: Table, q: Query, lo: int, hi: int)
    ensures ExactSelection(rows, q, lo, hi, Select(rows, q, lo, hi))
    decreases hi - lo
  {
    if lo < hi {
      SelectExact(rows, q, lo + 1, hi);
      var rest := Select(rows, q, lo + 1, hi);
      assert ExactSelection(rows, q, lo + 1, hi, rest);
      if lo in rows && Matches(q, rows[lo]) {
        var r := [rows[lo]] + rest;
        assert Select(rows, q, lo, hi) == r;
        assert rows[lo].id == lo;
        forall i | 0 <= i < |r|
          ensures lo <= r[i].id < hi && r[i].id in rows && rows[r[i].id] == r[i] && Matches(q, r[i])
        {
          if i > 0 { assert r[i] == rest[i - 1]; }
        }
        forall i, j | 0 <= i < j < |r| ensures r[i].id < r[j].id {
          assert r[j] == rest[j - 1];
          if i > 0 { assert r[i] == rest[i - 1]; }
        }
        forall id | lo <= id < hi && id in rows && Matches(q, rows[id]) ensures rows[id] in r {
          if id > lo { assert rows[id] in rest; }
        }
        assert ExactSelection(rows, q, lo, hi, r);
      } else {
        assert Select(rows, q, lo, hi) == rest;
        forall id | lo <= id < hi && id in rows && Matches(q, rows[id]) ensures rows[id] in rest {
          assert id != lo;
        }
      }
    }
  }

  /** `getUserCredentials`: exactly the caller's active rows (as `Select`
      states), or nothing without a connection. */
  function GetUserCredentials(db: Db, userId: int): (r: seq<Credential>)
    ensures !db.up ==> r == []
    ensures forall i :: 0 <= i < |r| ==>
      r[i].id in db.rows && db.rows[r[i].id] == r[i] && r[i].userId == userId && r[i].isActive == ACTIVE
    ensures db.up ==>
      forall id :: id in db.rows && Matches(ByOwner(userId), db.rows[id]) ==> db.rows[id] in r
    ensures db.up ==> ExactSelection(db.rows, ByOwner(userId), 1, db.nextId, r)
  {
    if !db.up then []
    else
      SelectExact(db.rows, ByOwner(userId), 1, db.nextId);
      Select(db.rows, ByOwner(userId), 1, db.nextId)
  }

  /** `getCredentialsByPlatform`: exactly the caller's active rows on one platform. */
  function GetCredentialsByPlatform(db: Db, userId: int, platform: Platform): (r: seq<Credential>)
    ensures !db.up ==> r == []
    ensures forall i :: 0 <= i < |r| ==>
      r[i].id in db.rows && db.rows[r[i].id] == r[i] && r[i].userId == userId &&
      r[i].isActive == ACTIVE && r[i].platform == platform
    ensures db.up ==>
      forall id :: id in db.rows && Matches(ByOwnerAndPlatform(userId, platform), db.rows[id]) ==>
        db.rows[id] in r
    ensures db.up ==> ExactSelection(db.rows, ByOwnerAndPlatform(userId, platform), 1, db.nextId, r)
  {
    if !db.up then []
    else
      SelectExact(db.rows, ByOwnerAndPlatform(userId, platform), 1, db.nextId);
      Select(db.rows, ByOwnerAndPlatform(userId, platform), 1, db.nextId)
  }

  /** The credentials of `s` on platform `p`, order kept. */
  function OnPlatform(s: seq<Credential>, p: Platform): seq<Credential> {
    if |s| == 0 then []
    else (if s[0].platform == p then [s[0]] else []) + OnPlatform(s[1..], p)
  }

  lemma {:induction false} SelectByPlatformFilters(rows: Table, u: int, p: Platform, lo: int, hi: int)
    ensures Select(rows, ByOwnerAndPlatform(u, p), lo, hi) == OnPlatform(Select(rows, ByOwner(u), lo, hi), p)
    decreases hi - lo
  {
    if lo < hi {
      SelectByPlatformFilters(rows, u, p, lo + 1, hi);
      var rest := Select(rows, ByOwner(u), lo + 1, hi);
      if lo in rows && Matches(ByOwner(u), rows[lo]) {
        var s := [rows[lo]] + rest;
        assert s[0] == rows[lo] && s[1..] == rest;
      }
    }
  }

  /** The platform listing is the owner listing filtered by platform, in
      the same order; in particular it is a subset of it. */
  lemma PlatformListingFiltersUserListing(db: Db, userId: int, platform: Platform)
    ensures GetCredentialsByPlatform(db, userId, platform) ==
            OnPlatform(GetUserCredentials(db, userId), platform)
  {
    if db.up {
      SelectByPlatformFilters(db.rows, userId, platform, 1, db.nextId);
    }
  }

  // ---------------------------------------------------------------------
  // Update and soft delete

  /** `Partial<{ name, apiKey, isActive }>`: each field may be left out. */
  datatype CredentialUpdate = CredentialUpdate(name: Option<string>, apiKey: Option<string>, isActive: Option<int>)

  /** A field that JavaScript treats as truthy: present and not `""`. */
  predicate Truthy(s: Option<string>) {
    s.Some? && s.value != ""
  }

  /** The row after applying `updateData`. */
  function Patched(c: Credential, u: CredentialUpdate, secret: Option<Encrypted>): Credential {
    c.(name := if Truthy(u.name) then u.name.value else c.name,
       encryptedValue := if secret.Some? then secret.value.encrypted else c.encryptedValue,
       encryptionIv := if secret.Some? then secret.value.iv else c.encryptionIv,
       isActive := if u.isActive.Some? then u.isActive.value else c.isActive)
  }

  /** `updateCredential`: the new secret (if any) is encrypted first, then
      only the row matching both id and owner is changed, and the row with
      that id is read back whoever owns it. */
  function UpdateCredential(db: Db, a: Aead, key: string, iv: Nonce,
                            id: int, userId: int, u: CredentialUpdate)
    : (r: Step<Option<Credential>>)
    ensures r.db.up == db.up && r.db.auditRejects == db.auditRejects
    ensures r.db.audit == db.audit && r.db.nextId == db.nextId
    ensures r.db.rows.Keys == db.rows.Keys
    ensures forall k :: k in db.rows && k != id ==> r.db.rows[k] == db.rows[k]
    ensures !db.up ==> r == Step(db, Returned(None))
    // only the owner's row changes; anyone else's update changes nothing
    ensures id in db.rows && db.rows[id].userId != userId ==> r.db.rows == db.rows
    ensures r.out.Threw? <==> db.up && Truthy(u.apiKey) && |Decode(key)| != KEY_LENGTH
    ensures r.out.Threw? ==> r.db == db
    ensures db.up && r.out.Returned? ==>
      r.out.value == (if id in db.rows then Some(r.db.rows[id]) else None)
    ensures db.up && r.out.Returned? && id in db.rows && db.rows[id].userId == userId ==>
      var old_ := db.rows[id];
      var new_ := r.db.rows[id];
      && new_.id == id && new_.userId == old_.userId && new_.platform == old_.platform
      && new_.name == (if Truthy(u.name) then u.name.value else old_.name)
      && new_.isActive == (if u.isActive.Some? then u.isActive.value else old_.isActive)
      && (Truthy(u.apiKey) ==>
            var e := EncryptCredential(a, key, iv, u.apiKey.value).value;
            new_.encryptedValue == e.encrypted && new_.encryptionIv == e.iv)
      && (!Truthy(u.apiKey) ==>
            new_.encryptedValue == old_.encryptedValue && new_.encryptionIv == old_.encryptionIv)
  {
    if !db.up then Step(db, Returned(None))
    else
      var secret := if Truthy(u.apiKey) then Some(EncryptCredential(a, key, iv, u.apiKey.value)) else None;
      if secret.Some? && secret.value.Err? then Step(db, Threw(Error(secret.value.message)))
      else
        var enc := if secret.Some? then Some(secret.value.value) else None;
        var rows' := if id in db.rows && db.rows[id].userId == userId
                     then db.rows[id := Patched(db.rows[id], u, enc)]
                     else db.rows;
        var db' := db.(rows := rows');
        Step(db', Returned(GetCredentialById(db', id)))
  }

  /** A secret replaced by the owner through `updateCredential` reads back
      as the new secret under the same key the cipher accepts. */
  lemma UpdatedSecretReadsBack(db: Db, a: Aead, key: string, iv: Nonce,
                               id: int, owner: int, u: CredentialUpdate)
    requires Sound(a) && |Decode(key)| == KEY_LENGTH && db.up
    requires id in db.rows && db.rows[id].userId == owner && Truthy(u.apiKey)
    ensures var r := UpdateCredential(db, a, key, iv, id, owner, u);
      && r.out == Returned(Some(r.db.rows[id]))
      && GetDecryptedCredential(r.db, a, key, id) == Some(u.apiKey.value)
  {
    RoundTrip(a, key, iv, u.apiKey.value);
  }

  /** `deleteCredential`: clear the active flag of the row matching both id
      and owner. Rows are never removed, and the answer is `true` whenever
      there is a connection, whether or not a row matched. */
  function DeleteCredential(db: Db, id: int, userId: int): (r: Step<bool>)
    ensures r.out == Returned(db.up)
    ensures r.db.up == db.up && r.db.auditRejects == db.auditRejects
    ensures r.db.audit == db.audit && r.db.nextId == db.nextId
    ensures r.db.rows.Keys == db.rows.Keys
    ensures forall k :: k in db.rows && (k != id || db.rows[k].userId != userId) ==>
      r.db.rows[k] == db.rows[k]
    ensures db.up && id in db.rows && db.rows[id].userId == userId ==>
      r.db.rows[id] == db.rows[id].(isActive := INACTIVE)
  {
    if !db.up then Step(db, Returned(false))
    else if id in db.rows && db.rows[id].userId == userId then
      Step(db.(rows := db.rows[id := db.rows[id].(isActive := INACTIVE)]), Returned(true))
    else Step(db, Returned(true))
  }

  /** After the owner deletes a credential it disappears from the owner's
      listing, yet is still found by id, now inactive. */
  lemma SoftDeleteHidesButKeeps(db: Db, id: int, owner: int)
    requires db.up && id in db.rows && db.rows[id].userId == owner
    ensures var d := DeleteCredential(db, id, owner).db;
      && GetCredentialById(d, id) == Some(db.rows[id].(isActive := INACTIVE))
      && forall i :: 0 <= i < |GetUserCredentials(d, owner)| ==> GetUserCredentials(d, owner)[i].id != id
  {
  }

  /** Deleting someone else's credential changes nothing, yet reports success. */
  lemma NonOwnerDeleteChangesNothing(db: Db, id: int, caller: int)
    requires db.up && id in db.rows && db.rows[id].userId != caller
    ensures DeleteCredential(db, id, caller) == Step(db, Returned(true))
  {
  }
}

=== FILE: hex.dfy ===
/** Bytes and Node's `'hex'` text encoding of them.

    `Buffer.toString('hex')` writes two lower-case digits per byte.
    `Buffer.from(s, 'hex')` is lenient: it decodes digit pairs from the
    left and silently stops at the first pair that is not two hex digits,
    so a trailing odd digit or any garbage suffix is dropped. */
module Hex {

  newtype byte = x: int | 0 <= x < 256

  predicate IsHexDigit(c: char) {
    ('0' <= c <= '9') || ('a' <= c <= 'f') || ('A' <= c <= 'F')
  }

  /** Every character of `s` is a hex digit. */
  predicate AllHexDigits(s: string) {
    forall i :: 0 <= i < |s| ==> IsHexDigit(s[i])
  }

  function DigitValue(c: char): (v: int)
    requires IsHexDigit(c)
    ensures 0 <= v < 16
  {
    if '0' <= c <= '9' then c as int - '0' as int
    else if 'a' <= c <= 'f' then c as int - 'a' as int + 10
    else c as int - 'A' as int + 10
  }

  /** The lower-case digit Node writes for a nibble. */
  function DigitChar(n: int): (c: char)
    requires 0 <= n < 16
    ensures IsHexDigit(c) && DigitValue(c) == n
    ensures !('A' <= c <= 'F')
  {
    if n < 10 then ('0' as int + n) as char else ('a' as int + n - 10) as char
  }

  function EncodeByte(b: byte): (s: string)
    ensures |s| == 2 && IsHexDigit(s[0]) && IsHexDigit(s[1])
    ensures (DigitValue(s[0]) * 16 + DigitValue(s[1])) as byte == b
  {
    [DigitChar(b as int / 16), DigitChar(b as int % 16)]
  }

  /** `Buffer.toString('hex')`. */
  function Encode(bs: seq<byte>): (s: string)
    ensures |s| == 2 * |bs|
    ensures AllHexDigits(s)
  {
    if |bs| == 0 then [] else EncodeByte(bs[0]) + Encode(bs[1..])
  }

  /** `Buffer.from(s, 'hex')`, including its silent truncation. */
  function Decode(s: string): (bs: seq<byte>)
    ensures 2 * |bs| <= |s|
  {
    if |s| < 2 || !IsHexDigit(s[0]) || !IsHexDigit(s[1]) then []
    else [(DigitValue(s[0]) * 16 + DigitValue(s[1])) as byte] + Decode(s[2..])
  }

  /** Encoding a concatenation is concatenating the encodings, which is
      why `hex(ciphertext) + hex(tag)` is one hex string of the frame. */
  lemma {:induction false} EncodeAppend(a: seq<byte>, b: seq<byte>)
    ensures Encode(a + b) == Encode(a) + Encode(b)
  {
    if |a| == 0 {
      assert a + b == b;
    } else {
      assert (a + b)[1..] == a[1..] + b;
      EncodeAppend(a[1..], b);
    }
  }

  /** Decoding undoes encoding. */
  lemma {:induction false} DecodeEncode(bs: seq<byte>)
    ensures Decode(Encode(bs)) == bs
  {
    if |bs| > 0 {
      var s := Encode(bs);
      var head := EncodeByte(bs[0]);
      assert s == head + Encode(bs[1..]);
      assert s[0] == head[0] && s[1] == head[1];
      assert s[2..] == Encode(bs[1..]);
      DecodeEncode(bs[1..]);
    }
  }

  /** Decoding `n` bytes needs `2n` leading hex digits: decoding stops at
      the first pair that is not two hex digits. */
  lemma {:induction false} DecodedBytesNeedHexPrefix(s: string, n: nat)
    requires |Decode(s)| >= n
    ensures 2 * n <= |s|
    ensures forall i :: 0 <= i < 2 * n ==> IsHexDigit(s[i])
  {
    if n > 0 {
      assert |s| >= 2 && IsHexDigit(s[0]) && IsHexDigit(s[1]);
      DecodedBytesNeedHexPrefix(s[2..], n - 1);
      forall i | 2 <= i < 2 * n ensures IsHexDigit(s[i]) {
        assert s[i] == s[2..][i - 2];
      }
    }
  }

  /** Conversely, `2n` leading hex digits always decode to at least `n`
      bytes, whatever follows them. */
  lemma {:induction false} HexPrefixDecodes(s: string, n: nat)
    requires 2 * n <= |s|
    requires forall i :: 0 <= i < 2 * n ==> IsHexDigit(s[i])
    ensures |Decode(s)| >= n
  {
    if n > 0 {
      forall i | 0 <= i < 2 * (n - 1) ensures IsHexDigit(s[2..][i]) {
        assert s[2..][i] == s[i + 2];
      }
      HexPrefixDecodes(s[2..], n - 1);
    }
  }

  /** A string made only of hex digits and of even length decodes in full:
      one byte per digit pair, nothing dropped. */
  lemma {:induction false} DecodeWellFormedLength(s: string)
    requires |s| % 2 == 0 && AllHexDigits(s)
    ensures |Decode(s)| * 2 == |s|
  {
    if |s| >= 2 {
      assert AllHexDigits(s[2..]) by {
        forall i | 0 <= i < |s[2..]| ensures IsHexDigit(s[2..][i]) {
          assert s[2..][i] == s[i + 2];
        }
      }
      DecodeWellFormedLength(s[2..]);
    }
  }
}

=== FILE: routes.dfy ===
/** The `credentials` procedures of `server/routers.ts`: `list`, `create`
    and `delete`.

    `list` only calls the store's owner listing and redacts every secret; it
    neither validates nor logs. `create` and `delete` evaluate the AMA-G
    verdict, throw if it fails, otherwise call the store and log the passing
    verdict. Unlike `withAMAGValidation`, a rejection here throws WITHOUT
    writing an audit row, and an exception from the store skips the log as
    well. `create` returns the new row with its secret redacted; `delete`
    returns `{ success }`. The signed-in user's id is a parameter. */
module Routes {
  import opened Base
  import opened Hex
  import opened Schema
  import opened SecretCipher
  import AmaG
  import Credentials

  const REDACTED: string := "***REDACTED***"
  const CREATE_ACTION: string := "create_credential"
  const DELETE_ACTION: string := "delete_credential"
  const CREDENTIAL_RESOURCE: string := "credential"

  /** `{ ...c, encryptedValue: '***REDACTED***' }`. */
  function Redact(c: Credential): Credential {
    c.(encryptedValue := REDACTED)
  }

  /** `c` and `d` are the same record except for the secret. */
  predicate SameButSecret(c: Credential, d: Credential) {
    && c.id == d.id && c.userId == d.userId && c.platform == d.platform
    && c.name == d.name && c.encryptionIv == d.encryptionIv && c.isActive == d.isActive
  }

  // ---------------------------------------------------------------------
  // credentials.list

  /** `credentials.list`: the caller's listing, same count and order, every
      record with its ciphertext replaced by the redaction marker. */
  function List(db: Db, userId: int): (r: seq<Credential>)
    ensures |r| == |Credentials.GetUserCredentials(db, userId)|
    ensures forall i :: 0 <= i < |r| ==>
      r[i].encryptedValue == REDACTED && SameButSecret(r[i], Credentials.GetUserCredentials(db, userId)[i])
  {
    var creds := Credentials.GetUserCredentials(db, userId);
    seq(|creds|, i requires 0 <= i < |creds| => Redact(creds[i]))
  }

  /** A stored credential shows up (redacted) in its owner's list exactly
      when it is active and owned by the caller. */
  lemma ListShowsExactlyActiveOwned(db: Db, userId: int, id: int)
    requires db.up && id in db.rows
    ensures Redact(db.rows[id]) in List(db, userId) <==>
      db.rows[id].userId == userId && db.rows[id].isActive == Credentials.ACTIVE
  {
  }

  // ---------------------------------------------------------------------
  // credentials.create

  /** The procedure's input after its schema check. */
  datatype CreateInput = CreateInput(platform: Platform, name: string, apiKey: string)

  /** The governed context of a create: the payload holds the platform and
      the name, never the secret. */
  function CreateContext(userId: int, input: CreateInput, resourceId: Option<int>): (c: AmaG.OperationContext)
    ensures c.action == CREATE_ACTION && c.resourceId == resourceId && c.userId == userId
    ensures c.input.Object? && |c.input.fields| == 2
    ensures c.input.fields[0] == ("platform", AmaG.JsonString(PlatformName(input.platform)))
    ensures c.input.fields[1] == ("name", AmaG.JsonString(input.name))
  {
    AmaG.OperationContext(userId, CREATE_ACTION, CREDENTIAL_RESOURCE, resourceId,
      AmaG.Object([("platform", AmaG.JsonString(PlatformName(input.platform))),
                   ("name", AmaG.JsonString(input.name))]),
      None, None)
  }

  function CreateVerdict(db: Db, userId: int, input: CreateInput): AmaG.ValidationResult {
    AmaG.ValidateWithAMAG(CreateContext(userId, input, None), db.up)
  }

  /** `credentials.create`. The input schema (`name` and `apiKey` at least
      one character) is checked before the procedure body runs. */
  function Create(db: Db, a: Aead, key: string, iv: Nonce, userId: int, input: CreateInput)
    : (r: Step<Option<Credential>>)
    requires |input.name| >= 1 && |input.apiKey| >= 1
    // rejection: no store call, no audit row
    ensures !CreateVerdict(db, userId, input).passed ==>
      r == Step(db, Threw(Error(AmaG.REJECTION_PREFIX + CreateVerdict(db, userId, input).reason)))
    // the store throws (unusable key): the exception escapes, nothing is logged
    ensures CreateVerdict(db, userId, input).passed && |Decode(key)| != KEY_LENGTH ==>
      r == Step(db, Threw(Error(INVALID_KEY_LENGTH)))
    ensures CreateVerdict(db, userId, input).passed && |Decode(key)| == KEY_LENGTH ==>
      var id := db.nextId;
      && id !in db.rows && id in r.db.rows && r.db.rows == db.rows[id := r.db.rows[id]]
      && r.db.rows[id].userId == userId && r.db.rows[id].name == input.name
      && r.db.rows[id].platform == input.platform && r.db.rows[id].isActive == Credentials.ACTIVE
      && r.db.rows[id].encryptedValue == EncryptCredential(a, key, iv, input.apiKey).value.encrypted
      && r.out == Returned(Some(Redact(r.db.rows[id])))
      && r.db.audit == db.audit +
           (if AmaG.Records(db)
            then [AmaG.AuditProjection(CreateContext(userId, input, Some(id)), CreateVerdict(db, userId, input))]
            else [])
  {
    var v := CreateVerdict(db, userId, input);
    if !v.passed then Step(db, Threw(Error(AmaG.REJECTION_PREFIX + v.reason)))
    else
      var s := Credentials.CreateCredential(db, a, key, iv, userId, input.platform, input.name, input.apiKey);
      match s.out
      case Threw(e) => s
      case Returned(result) =>
        var resourceId := if result.Some? then Some(result.value.id) else None;
        var logged := AmaG.LogOperation(s.db, CreateContext(userId, input, resourceId), v);
        Step(logged, Returned(if result.Some? then Some(Redact(result.value)) else None))
  }

  /** The verdict on a create fails only for a non-positive user id
      (reported first) or a missing database; the action and payload always
      pass. */
  lemma CreateVerdictCases(db: Db, userId: int, input: CreateInput)
    ensures CreateVerdict(db, userId, input).passed <==> userId > 0 && db.up
    ensures userId <= 0 ==> CreateVerdict(db, userId, input).reason == AmaG.INVALID_USER
    ensures userId > 0 && !db.up ==> CreateVerdict(db, userId, input).reason == AmaG.DB_UNAVAILABLE
  {
  }

  /** The audit trail a create leaves does not depend on the secret. */
  lemma CreateAuditIgnoresSecret(db: Db, a: Aead, key: string, iv: Nonce, userId: int,
                                 input: CreateInput, otherKey: string)
    requires |input.name| >= 1 && |input.apiKey| >= 1 && |otherKey| >= 1
    ensures var other := input.(apiKey := otherKey);
      Create(db, a, key, iv, userId, input).db.audit == Create(db, a, key, iv, userId, other).db.audit
  {
  }

  /** The difference from `withAMAGValidation`: for the same rejected
      create context on a recording database, the middleware writes a
      failed audit row, while the route leaves the trail untouched. */
  lemma RouteRejectionLeavesNoAuditRow<T>(db: Db, a: Aead, key: string, iv: Nonce, userId: int,
                                          input: CreateInput, op: Db -> Step<T>)
    requires |input.name| >= 1 && |input.apiKey| >= 1
    requires AmaG.Records(db) && userId <= 0
    ensures Create(db, a, key, iv, userId, input).db.audit == db.audit
    ensures var m := AmaG.WithAMAGValidation(db, CreateContext(userId, input, None), op);
      && m.out.Threw?
      && |m.db.audit| == |db.audit| + 1
      && m.db.audit[|db.audit|].amaGValidation == Failed
  {
  }

  // ---------------------------------------------------------------------
  // credentials.delete

  function DeleteContext(userId: int, id: int): (c: AmaG.OperationContext)
    ensures c.action == DELETE_ACTION && c.resourceId == Some(id) && c.userId == userId
    ensures c.input == AmaG.Object([("id", AmaG.JsonNumber(id))])
  {
    AmaG.OperationContext(userId, DELETE_ACTION, CREDENTIAL_RESOURCE, Some(id),
      AmaG.Object([("id", AmaG.JsonNumber(id))]), None, None)
  }

  function DeleteVerdict(db: Db, userId: int, id: int): AmaG.ValidationResult {
    AmaG.ValidateWithAMAG(DeleteContext(userId, id), db.up)
  }

  /** `credentials.delete`: returns `{ success }` from the store and logs
      the original passing verdict whatever the store did. */
  function Delete(db: Db, userId: int, id: int): (r: Step<bool>)
    ensures !DeleteVerdict(db, userId, id).passed ==>
      r == Step(db, Threw(Error(AmaG.REJECTION_PREFIX + DeleteVerdict(db, userId, id).reason)))
    ensures DeleteVerdict(db, userId, id).passed ==>
      var d := Credentials.DeleteCredential(db, id, userId);
      && r.out == d.out
      && r.db.rows == d.db.rows && r.db.nextId == db.nextId
      && r.db.audit == db.audit +
           (if AmaG.Records(db) then [AmaG.AuditProjection(DeleteContext(userId, id), DeleteVerdict(db, userId, id))] else [])
  {
    var v := DeleteVerdict(db, userId, id);
    if !v.passed then Step(db, Threw(Error(AmaG.REJECTION_PREFIX + v.reason)))
    else
      var s := Credentials.DeleteCredential(db, id, userId);
      var success := s.out.value;
      Step(AmaG.LogOperation(s.db, DeleteContext(userId, id), v), Returned(success))
  }

  /** Deleting another user's credential changes no row, yet the caller is
      told it succeeded and the audit trail records a pass. */
  lemma NonOwnerDeleteReportedAsSuccess(db: Db, userId: int, id: int)
    requires AmaG.Records(db) && userId > 0
    requires id in db.rows && db.rows[id].userId != userId
    ensures var r := Delete(db, userId, id);
      && r.out == Returned(true)
      && r.db.rows == db.rows
      && |r.db.audit| == |db.audit| + 1
      && r.db.audit[|db.audit|].action == DELETE_ACTION
      && r.db.audit[|db.audit|].resourceId == Some(id)
      && r.db.audit[|db.audit|].amaGValidation == Passed
  {
  }
}

=== FILE: schema.dfy ===
/** The rows the service stores (the `credentials` and `auditLogs` tables)
    and the database state every server operation reads and writes.

    The database is reduced to what the operations observe: whether
    `getDb()` yields a connection, whether the driver accepts audit
    inserts, the credential rows keyed by their auto-increment id, the next
    id the table will assign, and the append-only audit trail. Timestamps
    are not modelled. */
module Schema {
  import opened Base

  /** The `platform` column's enumeration. */
  datatype Platform = N8n | Flowise | Github

  function PlatformName(p: Platform): (s: string)
    ensures |s| > 0
  {
    match p
    case N8n => "n8n"
    case Flowise => "flowise"
    case Github => "github"
  }

  /** One `credentials` row. `isActive` is an integer column: 1 is active,
      and a soft delete writes 0. */
  datatype Credential = Credential(
    id: int,
    userId: int,
    platform: Platform,
    name: string,
    encryptedValue: string,
    encryptionIv: string,
    isActive: int)

  /** The `amaGValidation` column's enumeration. */
  datatype ValidationMark = Passed | Failed | Blocked

  /** One `auditLogs` row (without its id and timestamp). */
  datatype AuditEntry = AuditEntry(
    userId: int,
    action: string,
    resourceType: string,
    resourceId: Option<int>,
    details: Option<string>,
    amaGValidation: ValidationMark,
    ipAddress: Option<string>,
    userAgent: Option<string>)

  /** The credentials table: rows keyed by their primary key. */
  type Table = m: map<int, Credential> | forall id :: id in m ==> m[id].id == id
    witness map[]

  datatype Database = Database(
    up: bool,
    auditRejects: bool,
    rows: Table,
    nextId: int,
    audit: seq<AuditEntry>)
  {
    /** Auto-increment ids start at 1 and every stored id is below the next one. */
    predicate Wf() {
      nextId >= 1 && forall id :: id in rows ==> 1 <= id < nextId
    }
  }

  type Db = d: Database | d.Wf() witness Database(false, false, map[], 1, [])

  /** The result of a state-changing operation: the new state and how the
      call ended. */
  datatype Step<+T> = Step(db: Db, out: Outcome<T>)
}

=== FILE: sound_witness.dfy ===
/** A concrete instance of `SecretCipher.Aead` that satisfies `Sound`, so
    the assumption the cipher lemmas rest on is consistent. It is no cipher:
    the "ciphertext" is the plaintext and the tag is the padded nonce. The text
    codec writes each character as three bytes and decodes leniently, with
    U+FFFD for anything it cannot read, as UTF-8 decoding does. */
module SoundWitness {
  import opened Base
  import opened Hex
  import opened SecretCipher

  predicate IsScalar(n: int) {
    0 <= n < 0xD800 || 0xE000 <= n < 0x11_0000
  }

  function EncodeChar(c: char): (bs: seq<byte>)
    ensures |bs| == 3
  {
    var n := c as int;
    [(n / 0x1_0000) as byte, (n / 0x100 % 0x100) as byte, (n % 0x100) as byte]
  }

  function TripleValue(bs: seq<byte>): int
    requires |bs| >= 3
  {
    bs[0] as int * 0x1_0000 + bs[1] as int * 0x100 + bs[2] as int
  }

  function TextEncode(s: string): (bs: seq<byte>)
    ensures |bs| == 3 * |s|
  {
    if s == [] then [] else EncodeChar(s[0]) + TextEncode(s[1..])
  }

  function TextDecode(bs: seq<byte>): string
    decreases |bs|
  {
    if bs == [] then ""
    else if |bs| < 3 || !IsScalar(TripleValue(bs)) then [REPLACEMENT_CHAR]
    else [TripleValue(bs) as char] + TextDecode(bs[3..])
  }

  /** Reading back the three bytes of a character gives the character. */
  lemma EncodeCharValue(c: char)
    ensures TripleValue(EncodeChar(c)) == c as int
  {
    var n := c as int;
    var (hi, mid, lo) := (n / 0x1_0000, n / 0x100 % 0x100, n % 0x100);
    assert n == hi * 0x1_0000 + mid * 0x100 + lo;
  }

  /** Three bytes that form a character are its encoding. */
  lemma ValueEncodesBack(bs: seq<byte>)
    requires |bs| >= 3 && IsScalar(TripleValue(bs))
    ensures EncodeChar(TripleValue(bs) as char) == bs[..3]
  {
    var n := TripleValue(bs);
    var (b0, b1, b2) := (bs[0] as int, bs[1] as int, bs[2] as int);
    assert n / 0x1_0000 == b0;
    assert n / 0x100 == b0 * 0x100 + b1;
    assert n / 0x100 % 0x100 == b1;
    assert n % 0x100 == b2;
  }

  lemma {:induction false} TextRoundTrip(s: string)
    ensures TextDecode(TextEncode(s)) == s
  {
    if s != [] {
      var bs := TextEncode(s);
      assert bs[..3] == EncodeChar(s[0]);
      assert bs[3..] == TextEncode(s[1..]);
      EncodeCharValue(s[0]);
      TextRoundTrip(s[1..]);
    }
  }

  lemma {:induction false} TextLossless(bs: seq<byte>)
    requires REPLACEMENT_CHAR !in TextDecode(bs)
    ensures TextEncode(TextDecode(bs)) == bs
    decreases |bs|
  {
    if bs != [] {
      var t := TextDecode(bs);
      assert t == [TripleValue(bs) as char] + TextDecode(bs[3..]);
      assert REPLACEMENT_CHAR !in TextDecode(bs[3..]) by {
        assert TextDecode(bs[3..]) == t[1..];
      }
      TextLossless(bs[3..]);
      ValueEncodesBack(bs);
      assert t[1..] == TextDecode(bs[3..]);
      assert bs == bs[..3] + bs[3..];
    }
  }

  function ZeroTag(): (t: seq<byte>)
    ensures |t| == AUTH_TAG_LENGTH
  {
    seq(AUTH_TAG_LENGTH, _ => 0 as byte)
  }

  /** The witness's tag: a 12-byte nonce padded with zeros, so that the
      tag depends on the nonce as GCM's does. */
  function TagFor(iv: seq<byte>): (t: seq<byte>)
    ensures |t| == AUTH_TAG_LENGTH
    ensures |iv| == IV_LENGTH ==> t[..IV_LENGTH] == iv
  {
    if |iv| == IV_LENGTH then iv + [0, 0, 0, 0] else ZeroTag()
  }

  function Witness(): Aead {
    Aead(
      (k: seq<byte>, iv: seq<byte>, m: seq<byte>) => (m, TagFor(iv)),
      (k: seq<byte>, iv: seq<byte>, c: seq<byte>, t: seq<byte>) =>
        if ValidTagLength(|t|) && t <= TagFor(iv) then Ok(c) else Err("unable to authenticate data"),
      TextEncode,
      TextDecode)
  }

  /** `Sound` has a model. */
  lemma SoundIsSatisfiable()
    ensures Sound(Witness())
  {
    var a := Witness();
    forall s: string ensures a.fromUtf8(a.utf8(s)) == s {
      TextRoundTrip(s);
    }
    forall bs: seq<byte> | REPLACEMENT_CHAR !in a.fromUtf8(bs)
      ensures a.utf8(a.fromUtf8(bs)) == bs
    {
      TextLossless(bs);
    }
  }
}
